=== FILE: README.md ===
# IntelleQuiz room manager, modelled in Dafny

This project models the in-memory room and session logic of the IntelleQuiz
backend's `QuizManager`, plus the join form's `joinInput` schema from the
frontend. A registry is a `seq<Room>`. Each room has an id, a name, an admin,
a status (`waiting`, `started`, `ongoing`, `finished`), a quiz session and an
ordered roster of users. The quiz session holds the problem list, the problem
cursor and the start time of the current problem. Each operation of the manager
is a pure function: it takes the rooms and returns the new rooms with the reply
the source returns. Where the source broadcasts something, the payload is part
of the reply.

Points are integer thousandths of a point. Times are integer milliseconds and
countdowns are integer seconds. The clock (`new Date().getTime()`), the uuid of
a new user and the avatar draw (`Math.floor(Math.random() * 7) + 1`) are
parameters.

Files:
- `base.dfy` (module `Base`): `Option` and first-match search. JavaScript's `Array.find` returns the first match, so every lookup is a first-match search.
- `scoring.dfy` (module `Scoring`): `calculatePoints` and its properties.
- `rooms.dfy` (module `Rooms`): the records (`Status`, `User`, `Problem`, `Quiz`, `Room`) and the quiz cursor step.
- `leaderboard.dfy` (module `Leaderboard`): the ranking (ascending stable sort by points, then reverse).
- `quiz_manager.dfy` (module `QuizManager`): `findRoom`, `getQuiz`, `addUser`, `submitAnswer`, `next`, `endQuiz`, the leaderboard reveal, the registry invariant and worked scenarios.
- `join_validation.dfy` (module `JoinValidation`): the `joinInput` schema.

Four behaviours of the code differ from what a reader of the operation names would expect. The model follows the code:
- **Ties on the leaderboard.** The code sorts the roster ascending with a stable sort and then reverses it, so users tied on points come out in the reverse of the roster's current order. `Leaderboard.RankingTieExample` shows that a roster A(10), B(20), C(10) ranks as B, C, A.
- **Every ranking reorders the roster.** Both the delayed leaderboard reveal and `endQuiz` sort `room.users` in place. Each ranking lists every group of tied users in the reverse of the roster's order at that moment, and that order was itself set by the earlier reveals at the scores of their time. The final order of tied users therefore depends on the scores at every earlier reveal: it can be join order, reverse join order or neither. For two users already tied at the reveal, `endQuiz` lists them in join order again (`QuizManager.RevealThenEndJoinOrder`). A second `endQuiz` keeps the status `finished` but swaps tied users back (`QuizManager.EndQuizNotIdempotentOnTies`).
- **`submitAnswer` checks little.** It does not check that the problem is the active one. It scores with the countdown the caller passes, not the problem's own countdown. A repeated correct answer scores again.
- **`next` ignores the status.** It moves any room to `ongoing`, a finished one included (`QuizManager.NextReopensFinishedRoom`). Nothing in the modelled code sets `started`, because `start` only talks to the database.

## Model

`Rooms.NameTaken` is the username `find` of `addUser` (backend/src/managers/QuizManager.ts:144), and `Status.Text` gives the status strings (backend/src/managers/QuizManager.ts:8-13). Both are helpers of `QuizManager.AddUser` and are covered by its row and by `Rooms.StatusTextDistinct`.

| member | source | states |
|---|---|---|
| QuizManager.RoomIndex | backend/src/managers/QuizManager.ts:43-44 | the room that `find` picks has the requested id and is the first one with it; there is none exactly when no room has the id |
| QuizManager.FindRoom | backend/src/managers/QuizManager.ts:43-55 | a room comes back exactly when some room has the id; it is the first room with that id, and the error is empty; otherwise the room is empty and the error is "Room doesn't exist" |
| QuizManager.GetQuiz | backend/src/managers/QuizManager.ts:251-258 | a quiz comes back exactly when the room exists, and it is the quiz of the first room with the id |
| QuizManager.AddUser | backend/src/managers/QuizManager.ts:138-173 | the errors are checked in order: missing room, username already in the roster, status not waiting ("Quiz is " plus the status). Every error leaves all rooms unchanged. When the room exists, is waiting and has nobody with the username, the join succeeds. On success the roster grows by one, the old users stay in place, the new user is last with 0 points and the given id and avatar, other rooms are unchanged, and the reply carries status waiting and the room's problems |
| QuizManager.JoinSucceedsIff | backend/src/managers/QuizManager.ts:139-151 | a join succeeds if and only if the first room with the id is waiting and nobody in it has the username |
| Rooms.StatusTextDistinct | backend/src/managers/QuizManager.ts:8-13 | the four status strings are pairwise different, so the "Quiz is …" refusal names the room's status |
| Rooms.ImageOf | backend/src/managers/QuizManager.ts:154-160 | the stored image is the one decimal digit of the avatar number, from 1 to 7 |
| Scoring.RoundHalfUp | backend/src/managers/QuizManager.ts:284 | the result is within one half of the exact quotient, and a tie rounds upward (like `Math.round`) |
| Scoring.CalculatePoints | backend/src/managers/QuizManager.ts:278-285 | 0 when the elapsed seconds exceed the countdown; otherwise the nearest thousandth (ties upward) of 200 × (1 − elapsed/countdown) |
| Scoring.PointsAtStart | backend/src/managers/QuizManager.ts:281-284 | an answer at elapsed 0 is worth exactly 200 points |
| Scoring.PointsAtDeadline | backend/src/managers/QuizManager.ts:281-284 | an answer exactly when the countdown ends is worth 0 |
| Scoring.PointsLate | backend/src/managers/QuizManager.ts:281 | an answer later than the countdown is worth 0, however late |
| Scoring.PointsBounded | backend/src/managers/QuizManager.ts:278-285 | for a positive countdown and a non-negative elapsed time, the score lies between 0 and 200 points |
| Scoring.PointsNonNegative | backend/src/managers/QuizManager.ts:278-285 | for a positive countdown the score is never negative |
| Scoring.PointsNonIncreasing | backend/src/managers/QuizManager.ts:278-285 | for a positive countdown, a later answer never earns more than an earlier one |
| Scoring.PointsShiftInvariant | backend/src/managers/QuizManager.ts:279 | the score depends only on the difference between end and start time |
| Scoring.PointsExample | backend/src/managers/QuizManager.ts:278-285 | 2 s into a 10 s countdown the score is 160.000 |
| QuizManager.UserIndex | backend/src/managers/QuizManager.ts:269 | the chosen user is the first in the roster with the id; there is none exactly when no user has it |
| QuizManager.ProblemIndex | backend/src/managers/QuizManager.ts:267 | the chosen problem is the first in the list with the id; there is none exactly when no problem has it |
| QuizManager.ScoringTarget | backend/src/managers/QuizManager.ts:262-273 | a submission scores exactly when the room exists, its first problem with the id has the submitted answer, and a user with the id is in the room; it names that room and the first such user |
| QuizManager.SubmitAnswer | backend/src/managers/QuizManager.ts:260-276 | a missing room, unknown problem, wrong answer or unknown user changes nothing; otherwise only the answering user's points change, by `calculatePoints(startTime, now, countdown)`, and the roster order, every other user, every other field and every other room stay the same |
| QuizManager.SubmitRaisesTotalByScore | backend/src/managers/QuizManager.ts:274 | for a positive countdown and a submission at or after the start time, a room's point total rises either by nothing or by exactly the computed score, which is between 0 and 200 points |
| Rooms.QuizNext | backend/src/managers/QuizManager.ts:399-406 | the quiz step fails exactly when the cursor is at the end; otherwise it returns the problem under the cursor with its index and moves the cursor by one |
| Rooms.PresentationsAreRemainingProblems | backend/src/managers/QuizManager.ts:399-406 | stepping the quiz until it fails shows exactly the remaining problems, in order |
| QuizManager.Next | backend/src/managers/QuizManager.ts:388-429 | a missing room replies "No room found" with countdown 0; an exhausted quiz replies "There's no problems left." with countdown 0; both change nothing. Otherwise the room becomes ongoing, `startTime` becomes `now`, the cursor advances, the roster and other rooms are unchanged, and the reply carries the problem's countdown and the shown problem and index |
| QuizManager.NextStep | backend/src/managers/QuizManager.ts:399-408 | a successful `next` leaves the room findable at the same place, with the same problems and roster, and moves its cursor past the problem it shows |
| QuizManager.NextManyRoom | backend/src/managers/QuizManager.ts:388-429 | k calls of `next` on a quiz with at least k problems left keep the room at the same place with the same problems and roster, and advance the cursor by k |
| QuizManager.NextWalksProblems | backend/src/managers/QuizManager.ts:388-429 | k calls of `next` on a quiz with at least k problems left show exactly those k problems, in order, one per call |
| QuizManager.NextAfterLastProblem | backend/src/managers/QuizManager.ts:399-406 | once every problem has been shown, `next` reports an error and changes nothing |
| QuizManager.NextReopensFinishedRoom | backend/src/managers/QuizManager.ts:407 | `next` sets a finished room back to ongoing |
| QuizManager.EndQuiz | backend/src/managers/QuizManager.ts:431-450 | a missing room replies "No room found" and changes nothing; otherwise the status becomes finished, the roster is reordered to the broadcast leaderboard (same users, scores non-increasing, each group of equal scores in reverse roster order), and nothing else changes |
| QuizManager.EndQuizTwice | backend/src/managers/QuizManager.ts:441-444 | ending twice leaves the room finished with the same users, and each score group back in roster order |
| QuizManager.RevealThenEndJoinOrder | backend/src/managers/QuizManager.ts:431-470 | for two tied users in join order, the reveal lists them in reverse join order and a later `endQuiz` lists them in join order again |
| QuizManager.EndQuizNotIdempotentOnTies | backend/src/managers/QuizManager.ts:441-444 | two tied users swap places on each `endQuiz` |
| QuizManager.RevealLeaderboard | backend/src/managers/QuizManager.ts:452-466 | when the delayed reveal fires, the room's roster is reordered to the broadcast leaderboard (same users, scores non-increasing, each group of equal scores in reverse roster order) and nothing else changes; a missing room changes nothing |
| Leaderboard.Ranking | backend/src/managers/QuizManager.ts:468-470 | the leaderboard holds exactly the roster's users, lists scores from highest to lowest, and lists each group of equal scores in the reverse of its roster order |
| Leaderboard.Reverse | backend/src/managers/QuizManager.ts:469 | the result has the same length, with element i taken from position length − 1 − i |
| Leaderboard.RankingPermutes | backend/src/managers/QuizManager.ts:468-470 | the leaderboard holds exactly the roster's users, each as often as before, and so has the roster's length |
| Leaderboard.RankingUnique | backend/src/managers/QuizManager.ts:468-470 | the leaderboard is the only ordering that is non-increasing in score and lists each score group in reverse roster order |
| Leaderboard.RankingTieExample | backend/src/managers/QuizManager.ts:468-470 | A(10), B(20), C(10) rank as B, C, A |
| Leaderboard.RankingKeepsNamesDistinct | backend/src/managers/QuizManager.ts:468-470 | ranking a roster with distinct usernames keeps them distinct |
| QuizManager.AddUserKeepsNamesUnique | backend/src/managers/QuizManager.ts:144-147 | if every room's usernames are distinct, they stay distinct after a join |
| QuizManager.SubmitAnswerKeepsNamesUnique | backend/src/managers/QuizManager.ts:260-276 | answer submission keeps usernames distinct in every room |
| QuizManager.NextKeepsNamesUnique | backend/src/managers/QuizManager.ts:388-429 | `next` keeps usernames distinct in every room |
| QuizManager.EndQuizKeepsNamesUnique | backend/src/managers/QuizManager.ts:431-450 | `endQuiz` keeps usernames distinct in every room |
| QuizManager.RevealKeepsNamesUnique | backend/src/managers/QuizManager.ts:452-466 | the leaderboard reveal keeps usernames distinct in every room |
| QuizManager.SessionJoinExample | backend/src/managers/QuizManager.ts:138-173 | bob joins a waiting room; a second "bob" is refused with "User already in room" and the roster stays at one |
| QuizManager.SessionPlayExample | backend/src/managers/QuizManager.ts:260-449 | `next` shows the only problem with countdown 10 and status ongoing; a correct answer 2 s later earns 160.000; a further `next` fails; the final leaderboard is bob alone |
| JoinValidation.JoinIssues | frontend/src/zod/userValidation.ts:3-12 | the room-id message is reported if and only if the id is shorter than 5; the short-username message if and only if the username is shorter than 3; the long-username message if and only if it is longer than 10; no other message ever appears, there is one message per broken rule (so none exactly when the input is valid), and the room-id message comes first |
| JoinValidation.JoinInput | frontend/src/zod/userValidation.ts:3-12 | the input is valid if and only if the room id has at least 5 characters and the username has 3 to 10. Otherwise the message is "Room id is invalid", then "Username must be 3 or more characters", then "Username must be 10 below characters", in that order of priority |

## Left out

- `addRoom`, `addAdmin`, `addProblem` and `start` (backend/src/managers/QuizManager.ts:57-136, 219-249, 287-386) only make database calls and emit on the socket. They are not modelled. Since `addRoom` never adds to the in-memory list (the push is commented out), the model takes the registry as a given starting state.
- Broadcasts, `socket.join` and logging are not modelled as effects. The `problem`/`adminProblem` payload is `NextReply.shown`, the `end` payload is `EndReply.leaderboard`, and the `participants` payload of a join is the room's new roster.
- The timer in `getLeaderboard` is not modelled; `RevealLeaderboard` is the effect of its callback at the moment it fires.
- `Quiz` (`../Quiz`) is not part of this model. `Quiz.next()` is modelled as a cursor step: on success it shows the problem under the cursor, gives its index and moves the cursor; at the end it fails and changes nothing. `getQuiz()` is modelled as the problem list.
- Floating point is not modelled. Scores are exact rationals rounded half-up to integer thousandths, and the lateness test compares exact values.
- Countdowns are integer seconds, while the source accepts any number.
- Scoring.CalculatePoints: its precondition excludes a zero countdown with an answer that is not late, because the source computes NaN or Infinity there.
- QuizManager.SubmitAnswer: its precondition excludes a scored submission that meets that same NaN/Infinity case for the room's start time. Submissions that are not scored carry no condition.
- `username || ""` is the identity on strings, so it does not appear in the model.
- `joinInput` counts UTF-16 code units; the model counts characters of `seq<char>`.
- The rest of `joinInput.safeParse`'s result (issue paths and codes) is not modelled. The form shows only the first message.

=== FILE: base.dfy ===
/** Small shared vocabulary: an optional value and first-match search over a
    sequence, which is how the quiz manager looks up rooms, users and problems
    (JavaScript's `Array.prototype.find` returns the FIRST element that matches). */
module Base {

  datatype Option<+T> = None | Some(value: T)

  /** Index of the first element of `s` satisfying `p`, or None when no element does. */
  function FirstWhere<T>(s: seq<T>, p: T -> bool): (r: Option<nat>)
    ensures r.Some? ==> r.value < |s| && p(s[r.value])
    ensures r.Some? ==> forall j :: 0 <= j < r.value ==> !p(s[j])
    ensures r.None? ==> forall j :: 0 <= j < |s| ==> !p(s[j])
    decreases |s|
  {
    if |s| == 0 then None
    else if p(s[0]) then Some(0)
    else
      match FirstWhere(s[1..], p)
      case None => None
      case Some(k) => Some(k + 1)
  }
}

=== FILE: join_validation.dfy ===
/** The join form's schema `joinInput`: a room id of at least 5 characters and a
    username of 3 to 10 characters. Parsing reports every failed rule in schema
    order; the form displays the first one. */
module JoinValidation {

  const RoomIdInvalid := "Room id is invalid"
  const UsernameTooShort := "Username must be 3 or more characters"
  const UsernameTooLong := "Username must be 10 below characters"

  /** The messages of every rule the input breaks, in schema order. */
  function JoinIssues(roomId: string, username: string): (r: seq<string>)
    ensures RoomIdInvalid in r <==> |roomId| < 5
    ensures UsernameTooShort in r <==> |username| < 3
    ensures UsernameTooLong in r <==> |username| > 10
    ensures |r| == 0 <==> |roomId| >= 5 && 3 <= |username| <= 10
    ensures |r| == (if |roomId| < 5 then 1 else 0) + (if |username| < 3 || |username| > 10 then 1 else 0)
    ensures forall m :: m in r ==> m in [RoomIdInvalid, UsernameTooShort, UsernameTooLong]
    ensures |r| > 0 && |roomId| < 5 ==> r[0] == RoomIdInvalid
  {
    (if |roomId| < 5 then [RoomIdInvalid] else [])
    + (if |username| < 3 then [UsernameTooShort] else [])
    + (if |username| > 10 then [UsernameTooLong] else [])
  }

  datatype Verdict = Valid | Invalid(message: string)

  /** `joinInput.safeParse({ roomId, username })` as the form reads it: valid, or
      the first issue's message. */
  function JoinInput(roomId: string, username: string): (r: Verdict)
    ensures r.Valid? <==> |roomId| >= 5 && 3 <= |username| <= 10
    ensures |roomId| < 5 ==> r == Invalid(RoomIdInvalid)
    ensures |roomId| >= 5 && |username| < 3 ==> r == Invalid(UsernameTooShort)
    ensures |roomId| >= 5 && |username| > 10 ==> r == Invalid(UsernameTooLong)
  {
    var issues := JoinIssues(roomId, username);
    if |issues| == 0 then Valid else Invalid(issues[0])
  }
}

=== FILE: leaderboard.dfy ===
/** The ranking of `QuizManager.leaderboard`: `users.sort((a, b) => a.points - b.points).reverse()`.
    `Array.prototype.sort` is stable, so the sort keeps join order among equal
    scores, and the reverse that follows puts equal scores in REVERSE join order. */
module Leaderboard {
  import opened Rooms

  /** Scores never increase along the sequence. */
  ghost predicate NonIncreasing(s: seq<User>)
  {
    forall i, j :: 0 <= i < j < |s| ==> s[i].points >= s[j].points
  }

  /** Scores never decrease along the sequence. */
  ghost predicate NonDecreasing(s: seq<User>)
  {
    forall i, j :: 0 <= i < j < |s| ==> s[i].points <= s[j].points
  }

  /** The users scoring exactly `p`, in their order in `s`. */
  function WithPoints(s: seq<User>, p: int): seq<User>
  {
    if |s| == 0 then []
    else (if s[0].points == p then [s[0]] else []) + WithPoints(s[1..], p)
  }

  /** A score group holds only users of the sequence with that score. */
  lemma {:induction false} WithPointsMembers(s: seq<User>, p: int, u: User)
    requires u in WithPoints(s, p)
    ensures u in s && u.points == p
  {
    if |s| > 0 {
      var t := s[1..];
      assert s == [s[0]] + t;
      assert WithPoints(s, p) == Own(s[0], p) + WithPoints(t, p);
      if u in WithPoints(t, p) {
        WithPointsMembers(t, p, u);
      } else {
        assert u in Own(s[0], p);
      }
    }
  }

  function Reverse(s: seq<User>): (r: seq<User>)
    ensures |r| == |s|
    ensures forall i :: 0 <= i < |s| ==> r[i] == s[|s| - 1 - i]
  {
    if |s| == 0 then [] else Reverse(s[1..]) + [s[0]]
  }

  /** One step of a stable ascending insertion sort: `x` goes before the first
      user scoring at least as much, so it stays ahead of equal scores that
      joined after it. */
  function Insert(x: User, s: seq<User>): seq<User>
  {
    if |s| == 0 || x.points <= s[0].points then [x] + s
    else [s[0]] + Insert(x, s[1..])
  }

  /** The stable ascending sort by points. */
  function SortByPoints(s: seq<User>): seq<User>
  {
    if |s| == 0 then [] else Insert(s[0], SortByPoints(s[1..]))
  }

  /** `leaderboard(room)`: ascending stable sort, then reverse. The result holds
      the same users, scores from highest to lowest, and each group of equal
      scores in the reverse of its order in `users`. */
  function Ranking(users: seq<User>): (r: seq<User>)
    ensures multiset(r) == multiset(users)
    ensures NonIncreasing(r)
    ensures forall p :: WithPoints(r, p) == Reverse(WithPoints(users, p))
  {
    var sorted := SortByPoints(users);
    SortPermutes(users);
    ReversePermutes(sorted);
    SortSorted(users);
    assert forall p :: WithPoints(Reverse(sorted), p) == Reverse(WithPoints(users, p)) by {
      forall p
        ensures WithPoints(Reverse(sorted), p) == Reverse(WithPoints(users, p))
      {
        ReverseGroups(sorted, p);
        SortKeepsGroups(users, p);
      }
    }
    Reverse(sorted)
  }

  // ---- permutation ----

  lemma {:induction false} InsertPermutes(x: User, s: seq<User>)
    ensures multiset(Insert(x, s)) == multiset{x} + multiset(s)
  {
    if |s| > 0 && x.points > s[0].points {
      InsertPermutes(x, s[1..]);
      assert s == [s[0]] + s[1..];
    }
  }

  lemma {:induction false} SortPermutes(s: seq<User>)
    ensures multiset(SortByPoints(s)) == multiset(s)
  {
    if |s| > 0 {
      SortPermutes(s[1..]);
      InsertPermutes(s[0], SortByPoints(s[1..]));
      assert s == [s[0]] + s[1..];
    }
  }

  lemma {:induction false} ReversePermutes(s: seq<User>)
    ensures multiset(Reverse(s)) == multiset(s)
  {
    if |s| > 0 {
      ReversePermutes(s[1..]);
      assert s == [s[0]] + s[1..];
    }
  }

  /** The leaderboard holds exactly the roster's users, each as often as before,
      so it is as long as the roster. */
  lemma RankingPermutes(users: seq<User>)
    ensures multiset(Ranking(users)) == multiset(users)
    ensures |Ranking(users)| == |users|
  {
    assert |Ranking(users)| == |multiset(Ranking(users))|;
  }

  // ---- ordering ----

  lemma {:induction false} InsertSorted(x: User, s: seq<User>)
    requires NonDecreasing(s)
    ensures NonDecreasing(Insert(x, s))
  {
    if |s| > 0 && x.points > s[0].points {
      var t := Insert(x, s[1..]);
      InsertSorted(x, s[1..]);
      InsertPermutes(x, s[1..]);
      forall k | 0 <= k < |t|
        ensures s[0].points <= t[k].points
      {
        assert t[k] in multiset(t);
        if t[k] != x {
          assert t[k] in multiset(s[1..]);
        }
      }
    }
  }

  lemma {:induction false} SortSorted(s: seq<User>)
    ensures NonDecreasing(SortByPoints(s))
  {
    if |s| > 0 {
      SortSorted(s[1..]);
      InsertSorted(s[0], SortByPoints(s[1..]));
    }
  }

  // ---- order among equal scores ----

  /** The users of `[x]` that score `p`. */
  function Own(x: User, p: int): seq<User>
  {
    if x.points == p then [x] else []
  }

  lemma WithPointsCons(x: User, s: seq<User>, p: int)
    ensures WithPoints([x] + s, p) == Own(x, p) + WithPoints(s, p)
  {
    assert ([x] + s)[0] == x;
    assert ([x] + s)[1..] == s;
  }

  lemma {:induction false} WithPointsAppend(a: seq<User>, b: seq<User>, p: int)
    ensures WithPoints(a + b, p) == WithPoints(a, p) + WithPoints(b, p)
  {
    if |a| == 0 {
      assert a + b == b;
    } else {
      var x, t := a[0], a[1..];
      assert a == [x] + t;
      assert a + b == [x] + (t + b);
      WithPointsCons(x, t + b, p);
      WithPointsCons(x, t, p);
      WithPointsAppend(t, b, p);
      assert Own(x, p) + (WithPoints(t, p) + WithPoints(b, p))
          == (Own(x, p) + WithPoints(t, p)) + WithPoints(b, p);
    }
  }

  lemma {:induction false} InsertKeepsGroups(x: User, s: seq<User>, p: int)
    ensures WithPoints(Insert(x, s), p) == Own(x, p) + WithPoints(s, p)
  {
    if |s| == 0 || x.points <= s[0].points {
      assert Insert(x, s) == [x] + s;
      WithPointsCons(x, s, p);
    } else {
      var y, t := s[0], s[1..];
      assert s == [y] + t;
      assert Insert(x, s) == [y] + Insert(x, t);
      WithPointsCons(y, Insert(x, t), p);
      InsertKeepsGroups(x, t, p);
      WithPointsCons(y, t, p);
      var w := WithPoints(t, p);
      // y scores less than x, so at most one of them scores p
      if x.points == p {
        assert Own(y, p) == [];
        assert [] + (Own(x, p) + w) == Own(x, p) + w;
        assert Own(x, p) + ([] + w) == Own(x, p) + w;
      } else {
        assert Own(x, p) == [];
        assert Own(y, p) + ([] + w) == Own(y, p) + w;
        assert [] + (Own(y, p) + w) == Own(y, p) + w;
      }
    }
  }

  lemma {:induction false} SortKeepsGroups(s: seq<User>, p: int)
    ensures WithPoints(SortByPoints(s), p) == WithPoints(s, p)
  {
    if |s| > 0 {
      assert s == [s[0]] + s[1..];
      SortKeepsGroups(s[1..], p);
      InsertKeepsGroups(s[0], SortByPoints(s[1..]), p);
      WithPointsCons(s[0], s[1..], p);
    }
  }

  lemma ReverseCons(x: User, s: seq<User>)
    ensures Reverse([x] + s) == Reverse(s) + [x]
  {
    assert ([x] + s)[0] == x;
    assert ([x] + s)[1..] == s;
  }

  /** Reversing twice gives back the original order. */
  lemma {:induction false} ReverseTwice(s: seq<User>)
    ensures Reverse(Reverse(s)) == s
  {
    var r := Reverse(Reverse(s));
    assert forall k :: 0 <= k < |s| ==> r[k] == s[k];
  }

  lemma {:induction false} ReverseGroups(s: seq<User>, p: int)
    ensures WithPoints(Reverse(s), p) == Reverse(WithPoints(s, p))
  {
    if |s| > 0 {
      var x, t := s[0], s[1..];
      assert s == [x] + t;
      ReverseCons(x, t);
      WithPointsAppend(Reverse(t), [x], p);
      ReverseGroups(t, p);
      WithPointsCons(x, t, p);
      WithPointsCons(x, [], p);
      assert [x] + [] == [x];
      assert WithPoints([], p) == [];
      var g := WithPoints(t, p);
      if x.points == p {
        ReverseCons(x, g);
      } else {
        assert Own(x, p) + g == g;
        assert Reverse(g) + [] == Reverse(g);
      }
    }
  }

  /** Two users with equal scores swap places. */
  lemma RankingSwapsTiedPair(a: User, b: User)
    requires a.points == b.points
    ensures Ranking([a, b]) == [b, a]
  {
    assert [a, b][1..] == [b];
    assert SortByPoints([b]) == Insert(b, []) == [b];
    assert SortByPoints([a, b]) == Insert(a, [b]) == [a, b];
    ReverseCons(a, [b]);
    ReverseCons(b, []);
  }

  // ---- the ranking is the only one with these properties ----

  lemma HeadGroup(s: seq<User>)
    ensures |s| > 0 ==> WithPoints(s, s[0].points) == [s[0]] + WithPoints(s[1..], s[0].points)
  {
  }

  lemma HeadIsMax(s: seq<User>, u: User)
    requires NonIncreasing(s) && u in s
    ensures u.points <= s[0].points
  {
    var k :| 0 <= k < |s| && s[k] == u;
    if k > 0 {
      assert s[0].points >= s[k].points;
    }
  }

  /** Two score-ordered sequences with the same users in each score group, in
      the same order, are equal. */
  lemma {:induction false} SameGroupsSameOrder(a: seq<User>, b: seq<User>)
    requires NonIncreasing(a) && NonIncreasing(b)
    requires forall p :: WithPoints(a, p) == WithPoints(b, p)
    ensures a == b
    decreases |a| + |b|
  {
    HeadGroup(a);
    HeadGroup(b);
    if |a| > 0 && |b| > 0 {
      var x, y, a', b' := a[0], b[0], a[1..], b[1..];
      assert a == [x] + a' && b == [y] + b';
      assert x in WithPoints(b, x.points);
      WithPointsMembers(b, x.points, x);
      HeadIsMax(b, x);
      assert y in WithPoints(a, y.points);
      WithPointsMembers(a, y.points, y);
      HeadIsMax(a, y);
      var k := x.points;
      assert y.points == k;
      assert [x] + WithPoints(a', k) == [y] + WithPoints(b', k);
      assert x == ([x] + WithPoints(a', k))[0];
      assert y == ([y] + WithPoints(b', k))[0];
      forall p
        ensures WithPoints(a', p) == WithPoints(b', p)
      {
        WithPointsCons(x, a', p);
        WithPointsCons(y, b', p);
        assert WithPoints(a, p) == WithPoints(b, p);
        if p == k {
          assert ([x] + WithPoints(a', p))[1..] == WithPoints(a', p);
          assert ([y] + WithPoints(b', p))[1..] == WithPoints(b', p);
        } else {
          assert [] + WithPoints(a', p) == WithPoints(a', p);
          assert [] + WithPoints(b', p) == WithPoints(b', p);
        }
      }
      SameGroupsSameOrder(a', b');
    }
  }

  /** The leaderboard is the unique ordering that ranks by score, highest
      first, and lists equal scores in reverse roster order. */
  lemma RankingUnique(users: seq<User>, t: seq<User>)
    requires NonIncreasing(t)
    requires forall p :: WithPoints(t, p) == Reverse(WithPoints(users, p))
    ensures t == Ranking(users)
  {
    SameGroupsSameOrder(t, Ranking(users));
  }

  // ---- distinct usernames survive reordering ----

  lemma RemoveKeepsDistinct(a: seq<User>, k: int)
    requires NamesDistinct(a) && 0 <= k < |a|
    ensures NamesDistinct(a[..k] + a[k + 1..])
    ensures forall u :: u in a[..k] + a[k + 1..] ==> u.username != a[k].username
  {
    var r := a[..k] + a[k + 1..];
    assert forall i :: 0 <= i < |r| ==> r[i] == (if i < k then a[i] else a[i + 1]);
  }

  lemma ConsDistinct(x: User, t: seq<User>)
    requires NamesDistinct(t)
    requires forall u :: u in t ==> u.username != x.username
    ensures NamesDistinct([x] + t)
  {
    var s := [x] + t;
    forall i, j | 0 <= i < j < |s|
      ensures s[i].username != s[j].username
    {
      assert s[j] == t[j - 1];
      if i > 0 {
        assert s[i] == t[i - 1];
      }
    }
  }

  lemma RemoveOne(a: seq<User>, k: int)
    requires 0 <= k < |a|
    ensures multiset(a[..k] + a[k + 1..]) == multiset(a) - multiset{a[k]}
  {
    assert a == a[..k] + [a[k]] + a[k + 1..];
  }

  lemma ConsPermutedDistinct(x: User, t: seq<User>, rest: seq<User>)
    requires multiset(rest) == multiset(t) && NamesDistinct(t)
    requires forall u :: u in rest ==> u.username != x.username
    ensures NamesDistinct([x] + t)
  {
    forall u | u in t
      ensures u.username != x.username
    {
      assert u in multiset(rest);
    }
    ConsDistinct(x, t);
  }

  /** Reordering a roster keeps its usernames distinct. */
  lemma {:induction false} PermutationKeepsNamesDistinct(a: seq<User>, b: seq<User>)
    requires multiset(a) == multiset(b) && NamesDistinct(a)
    ensures NamesDistinct(b)
    decreases |b|
  {
    if |b| > 0 {
      assert [b[0]] + b[1..] == b;
      assert b[0] in multiset(a);
      assert b[0] in a;
      var k :| 0 <= k < |a| && a[k] == b[0];
      var rest := a[..k] + a[k + 1..];
      RemoveOne(a, k);
      RemoveOne(b, 0);
      assert b[..0] + b[1..] == b[1..];
      RemoveKeepsDistinct(a, k);
      PermutationKeepsNamesDistinct(rest, b[1..]);
      ConsPermutedDistinct(b[0], b[1..], rest);
    }
  }

  /** The leaderboard of a roster with distinct usernames has distinct usernames. */
  lemma RankingKeepsNamesDistinct(users: seq<User>)
    requires NamesDistinct(users)
    ensures NamesDistinct(Ranking(users))
  {
    RankingPermutes(users);
    PermutationKeepsNamesDistinct(users, Ranking(users));
  }

  /** Worked example: A and C tie on 10 points behind B on 20; the leaderboard
      puts C (the later joiner) ahead of A. */
  lemma RankingTieExample()
    ensures var a, b, c := User("a", "A", 10, "1"), User("b", "B", 20, "2"), User("c", "C", 10, "3");
            Ranking([a, b, c]) == [b, c, a]
  {
    var a, b, c := User("a", "A", 10, "1"), User("b", "B", 20, "2"), User("c", "C", 10, "3");
    assert [a, b, c][1..] == [b, c] && [b, c][1..] == [c] && [c][1..] == [];
    assert SortByPoints([c]) == [c];
    assert Insert(b, [c]) == [c, b];
    assert SortByPoints([b, c]) == [c, b];
    assert SortByPoints([a, b, c]) == [a, c, b];
  }
}

=== FILE: quiz_manager.dfy ===
/** The room registry of `QuizManager` as a pure state transformer: each
    operation takes the list of live rooms and returns the new list together
    with the reply the source returns (and, where it broadcasts, the payload).
    The clock (`now`), the fresh user id and the avatar draw are parameters. */
module QuizManager {
  import opened Base
  import opened Rooms
  import opened Scoring
  import opened Leaderboard

  /** An operation's effect: the rooms afterwards and the reply. */
  datatype Step<R> = Step(rooms: seq<Room>, reply: R)

  /** Index of the room `Array.find` returns for `roomId`. */
  function RoomIndex(rooms: seq<Room>, roomId: string): (r: Option<nat>)
    ensures r.Some? ==> r.value < |rooms| && rooms[r.value].id == roomId
    ensures r.Some? ==> forall j :: 0 <= j < r.value ==> rooms[j].id != roomId
    ensures r.None? <==> forall j :: 0 <= j < |rooms| ==> rooms[j].id != roomId
  {
    FirstWhere(rooms, (room: Room) => room.id == roomId)
  }

  /** The rooms with the room at `i` replaced. */
  function Replace(rooms: seq<Room>, i: nat, room: Room): (r: seq<Room>)
    requires i < |rooms|
    ensures |r| == |rooms| && r[i] == room
    ensures forall j :: 0 <= j < |rooms| && j != i ==> r[j] == rooms[j]
  {
    rooms[i := room]
  }

  // ---- findRoom ----

  datatype FindReply = FindReply(room: Option<Room>, error: Option<string>)

  /** `findRoom(roomId)`: the first room with that id, or the error message. */
  function FindRoom(rooms: seq<Room>, roomId: string): (r: FindReply)
    ensures r.room.Some? <==> exists j :: 0 <= j < |rooms| && rooms[j].id == roomId
    ensures r.room.Some? ==> r.room.value.id == roomId && r.room.value in rooms && r.error.None?
    ensures r.room.Some? ==> exists i :: 0 <= i < |rooms| && rooms[i] == r.room.value &&
                                forall k :: 0 <= k < i ==> rooms[k].id != roomId
    ensures r.room.None? ==> r.error == Some("Room doesn't exist")
  {
    match RoomIndex(rooms, roomId)
    case None => FindReply(None, Some("Room doesn't exist"))
    case Some(i) => FindReply(Some(rooms[i]), None)
  }

  /** `getQuiz(roomId)`: the quiz of the room, if the room exists. */
  function GetQuiz(rooms: seq<Room>, roomId: string): (r: Option<Quiz>)
    ensures r.Some? <==> exists j :: 0 <= j < |rooms| && rooms[j].id == roomId
    ensures r.Some? ==> r.value == rooms[RoomIndex(rooms, roomId).value].quiz
  {
    match RoomIndex(rooms, roomId)
    case None => None
    case Some(i) => Some(rooms[i].quiz)
  }

  // ---- addUser ----

  datatype JoinReply =
    | JoinFailed(error: string)
    | Joined(id: string, roomId: string, image: Avatar, status: Status, problems: seq<Problem>)

  /** `addUser(roomId, username)`, with the generated uuid `id` and the avatar draw. */
  function AddUser(rooms: seq<Room>, roomId: string, username: string, id: string, avatar: Avatar)
    : (r: Step<JoinReply>)
    // the three refusals, in the order they are checked, leave every room as it was
    ensures RoomIndex(rooms, roomId).None? ==> r == Step(rooms, JoinFailed("Room doesn't exist"))
    ensures RoomIndex(rooms, roomId).Some? ==>
              var room := rooms[RoomIndex(rooms, roomId).value];
              && (NameTaken(room.users, username) ==> r == Step(rooms, JoinFailed("User already in room")))
              && (!NameTaken(room.users, username) && room.status != Waiting ==>
                    r == Step(rooms, JoinFailed("Quiz is " + room.status.Text())))
    // an existing waiting room without the name always takes the new user
    ensures (&& RoomIndex(rooms, roomId).Some?
             && rooms[RoomIndex(rooms, roomId).value].status == Waiting
             && !NameTaken(rooms[RoomIndex(rooms, roomId).value].users, username)) ==> r.reply.Joined?
    // a successful join appends exactly one fresh user and touches nothing else
    ensures r.reply.Joined? ==>
              && RoomIndex(rooms, roomId).Some?
              && var i := RoomIndex(rooms, roomId).value;
              && rooms[i].status == Waiting && !NameTaken(rooms[i].users, username)
              && r.reply == Joined(id, roomId, avatar, Waiting, rooms[i].quiz.problems)
              && |r.rooms| == |rooms|
              && (forall j :: 0 <= j < |rooms| && j != i ==> r.rooms[j] == rooms[j])
              && r.rooms[i].(users := rooms[i].users) == rooms[i]
              && |r.rooms[i].users| == |rooms[i].users| + 1
              && r.rooms[i].users[..|rooms[i].users|] == rooms[i].users
              && r.rooms[i].users[|rooms[i].users|] == User(id, username, 0, ImageOf(avatar))
    ensures r.reply.JoinFailed? ==> r.rooms == rooms
  {
    match RoomIndex(rooms, roomId)
    case None => Step(rooms, JoinFailed("Room doesn't exist"))
    case Some(i) =>
      var room := rooms[i];
      if NameTaken(room.users, username) then Step(rooms, JoinFailed("User already in room"))
      else if room.status != Waiting then Step(rooms, JoinFailed("Quiz is " + room.status.Text()))
      else
        var user := User(id, username, 0, ImageOf(avatar));
        Step(Replace(rooms, i, room.(users := room.users + [user])),
             Joined(id, room.id, avatar, room.status, room.quiz.problems))
  }

  /** A join succeeds exactly when the room exists, the name is free and the quiz
      is still waiting. */
  lemma JoinSucceedsIff(rooms: seq<Room>, roomId: string, username: string, id: string, avatar: Avatar)
    ensures AddUser(rooms, roomId, username, id, avatar).reply.Joined? <==>
              (exists j :: 0 <= j < |rooms| && rooms[j].id == roomId &&
                 (forall k :: 0 <= k < j ==> rooms[k].id != roomId) &&
                 rooms[j].status == Waiting && !NameTaken(rooms[j].users, username))
  {
    var r := AddUser(rooms, roomId, username, id, avatar);
    if r.reply.Joined? {
      var i := RoomIndex(rooms, roomId).value;
      assert rooms[i].id == roomId && forall k :: 0 <= k < i ==> rooms[k].id != roomId;
    }
  }

  // ---- submitAnswer ----

  /** Index of the first user with this id. */
  function UserIndex(users: seq<User>, userId: string): (r: Option<nat>)
    ensures r.Some? ==> r.value < |users| && users[r.value].id == userId
    ensures r.Some? ==> forall j :: 0 <= j < r.value ==> users[j].id != userId
    ensures r.None? <==> forall j :: 0 <= j < |users| ==> users[j].id != userId
  {
    FirstWhere(users, (u: User) => u.id == userId)
  }

  /** Index of the first problem with this id. */
  function ProblemIndex(problems: seq<Problem>, problemId: string): (r: Option<nat>)
    ensures r.Some? ==> r.value < |problems| && problems[r.value].id == problemId
    ensures r.Some? ==> forall j :: 0 <= j < r.value ==> problems[j].id != problemId
    ensures r.None? <==> forall j :: 0 <= j < |problems| ==> problems[j].id != problemId
  {
    FirstWhere(problems, (p: Problem) => p.id == problemId)
  }

  /** A submission scores when the problem exists, the answer matches it and the
      user is in the room; the result is the room index and the user index. */
  function ScoringTarget(rooms: seq<Room>, userId: string, roomId: string, problemId: string, answer: int)
    : (r: Option<(nat, nat)>)
    ensures r.Some? ==> RoomIndex(rooms, roomId) == Some(r.value.0)
    ensures r.Some? ==> UserIndex(rooms[r.value.0].users, userId) == Some(r.value.1)
    ensures r.Some? <==>
              && RoomIndex(rooms, roomId).Some?
              && var room := rooms[RoomIndex(rooms, roomId).value];
              && ProblemIndex(room.quiz.problems, problemId).Some?
              && room.quiz.problems[ProblemIndex(room.quiz.problems, problemId).value].answer == answer
              && UserIndex(room.users, userId).Some?
  {
    match RoomIndex(rooms, roomId)
    case None => None
    case Some(i) =>
      match ProblemIndex(rooms[i].quiz.problems, problemId)
      case None => None
      case Some(p) =>
        if rooms[i].quiz.problems[p].answer != answer then None
        else
          match UserIndex(rooms[i].users, userId)
          case None => None
          case Some(k) => Some((i, k))
  }

  /** Whenever the submission is scored, its score at `now` is a finite number. */
  predicate SubmissionScorable(rooms: seq<Room>, userId: string, roomId: string, problemId: string,
                               answer: int, countdown: int, now: int)
  {
    match ScoringTarget(rooms, userId, roomId, problemId, answer)
    case None => true
    case Some((i, _)) => Scorable(rooms[i].quiz.startTime, now, countdown)
  }

  /** `submitAnswer(userId, roomId, problemId, answer, countdown)` received at `now`. */
  function SubmitAnswer(rooms: seq<Room>, userId: string, roomId: string, problemId: string,
                        answer: int, countdown: int, now: int): (r: seq<Room>)
    requires SubmissionScorable(rooms, userId, roomId, problemId, answer, countdown, now)
    // a missing room, unknown problem, wrong answer or unknown user changes nothing
    ensures ScoringTarget(rooms, userId, roomId, problemId, answer).None? ==> r == rooms
    // otherwise exactly the answering user gains the points for the elapsed time
    ensures ScoringTarget(rooms, userId, roomId, problemId, answer).Some? ==>
              var (i, k) := ScoringTarget(rooms, userId, roomId, problemId, answer).value;
              && |r| == |rooms|
              && (forall j :: 0 <= j < |rooms| && j != i ==> r[j] == rooms[j])
              && r[i].(users := rooms[i].users) == rooms[i]
              && |r[i].users| == |rooms[i].users|
              && (forall j :: 0 <= j < |rooms[i].users| && j != k ==> r[i].users[j] == rooms[i].users[j])
              && r[i].users[k].(points := rooms[i].users[k].points) == rooms[i].users[k]
              && r[i].users[k].points ==
                   rooms[i].users[k].points + CalculatePoints(rooms[i].quiz.startTime, now, countdown)
  {
    match ScoringTarget(rooms, userId, roomId, problemId, answer)
    case None => rooms
    case Some((i, k)) =>
      var room := rooms[i];
      var user := room.users[k];
      var gained := CalculatePoints(room.quiz.startTime, now, countdown);
      Replace(rooms, i, room.(users := room.users[k := user.(points := user.points + gained)]))
  }

  /** Sum of the points of a roster. */
  function TotalPoints(users: seq<User>): int
  {
    if |users| == 0 then 0 else users[0].points + TotalPoints(users[1..])
  }

  lemma {:induction false} TotalPointsUpdate(users: seq<User>, k: nat, u: User)
    requires k < |users|
    ensures TotalPoints(users[k := u]) == TotalPoints(users) - users[k].points + u.points
  {
    if k > 0 {
      TotalPointsUpdate(users[1..], k - 1, u);
      assert users[k := u][1..] == users[1..][k - 1 := u];
    }
  }

  /** A correct answer given within the countdown raises the room's total by
      between 0 and 200 points; any other submission leaves it unchanged. */
  lemma SubmitRaisesTotalByScore(rooms: seq<Room>, userId: string, roomId: string, problemId: string,
                                 answer: int, countdown: int, now: int, i: nat)
    requires SubmissionScorable(rooms, userId, roomId, problemId, answer, countdown, now)
    requires i < |rooms| && countdown > 0 && now >= rooms[i].quiz.startTime
    ensures var r := SubmitAnswer(rooms, userId, roomId, problemId, answer, countdown, now);
            rooms[i].users == r[i].users || 
            TotalPoints(r[i].users) - TotalPoints(rooms[i].users)
              == CalculatePoints(rooms[i].quiz.startTime, now, countdown)
    ensures var r := SubmitAnswer(rooms, userId, roomId, problemId, answer, countdown, now);
            TotalPoints(rooms[i].users) <= TotalPoints(r[i].users) <= TotalPoints(rooms[i].users) + MaxPoints
  {
    var r := SubmitAnswer(rooms, userId, roomId, problemId, answer, countdown, now);
    PointsBounded(rooms[i].quiz.startTime, now, countdown);
    match ScoringTarget(rooms, userId, roomId, problemId, answer)
    case None =>
    case Some((i', k)) =>
      if i' == i {
        var u := rooms[i].users[k];
        assert r[i].users == rooms[i].users[k := u.(points := u.points + CalculatePoints(rooms[i].quiz.startTime, now, countdown))];
        TotalPointsUpdate(rooms[i].users, k, r[i].users[k]);
      }
  }

  // ---- next ----

  /** What `next` broadcasts: the problem, its index and the new status. */
  datatype Shown = Shown(problem: Problem, index: nat, status: Status)

  datatype NextReply = NextReply(error: bool, message: string, countdown: int, shown: Option<Shown>)

  /** `next(roomId)` at time `now`: show the next problem of the room's quiz. */
  function Next(rooms: seq<Room>, roomId: string, now: int): (r: Step<NextReply>)
    ensures RoomIndex(rooms, roomId).None? ==> r == Step(rooms, NextReply(true, "No room found", 0, None))
    ensures RoomIndex(rooms, roomId).Some? ==>
              var i := RoomIndex(rooms, roomId).value;
              var q := rooms[i].quiz;
              && (q.currentProblem >= |q.problems| ==>
                    r == Step(rooms, NextReply(true, "There's no problems left.", 0, None)))
              && (q.currentProblem < |q.problems| ==>
                    && r.reply == NextReply(false, "", q.problems[q.currentProblem].countdown,
                                            Some(Shown(q.problems[q.currentProblem], q.currentProblem, Ongoing)))
                    && |r.rooms| == |rooms|
                    && (forall j :: 0 <= j < |rooms| && j != i ==> r.rooms[j] == rooms[j])
                    && r.rooms[i].status == Ongoing
                    && r.rooms[i].quiz == Quiz(q.problems, q.currentProblem + 1, now)
                    && r.rooms[i].(status := rooms[i].status, quiz := q) == rooms[i])
  {
    match RoomIndex(rooms, roomId)
    case None => Step(rooms, NextReply(true, "No room found", 0, None))
    case Some(i) =>
      var room := rooms[i];
      match QuizNext(room.quiz)
      case NoProblemsLeft => Step(rooms, NextReply(true, "There's no problems left.", 0, None))
      case Present(problem, index, quiz) =>
        var room' := room.(status := Ongoing, quiz := quiz.(startTime := now));
        Step(Replace(rooms, i, room'),
             NextReply(false, "", problem.countdown, Some(Shown(problem, index, room'.status))))
  }

  /** One successful `next` keeps the room where it is, with the same problems
      and roster, and moves its cursor past the problem it shows. */
  lemma NextStep(rooms: seq<Room>, roomId: string, now: int, i: nat)
    requires RoomIndex(rooms, roomId) == Some(i)
    requires rooms[i].quiz.currentProblem < |rooms[i].quiz.problems|
    ensures var s := Next(rooms, roomId, now);
            && RoomIndex(s.rooms, roomId) == Some(i)
            && s.reply.shown.Some?
            && s.reply.shown.value.problem == rooms[i].quiz.problems[rooms[i].quiz.currentProblem]
            && s.rooms[i].quiz.currentProblem == rooms[i].quiz.currentProblem + 1
            && s.rooms[i].quiz.problems == rooms[i].quiz.problems
            && s.rooms[i].users == rooms[i].users
  {
    var s := Next(rooms, roomId, now);
    assert forall j :: 0 <= j < |rooms| ==> s.rooms[j].id == rooms[j].id;
  }

  /** Calling `next` once per remaining problem keeps the room where it is, with
      the same problems and roster, and advances its cursor once per call. */
  lemma {:induction false} NextManyRoom(rooms: seq<Room>, roomId: string, times: seq<int>, i: nat)
    requires RoomIndex(rooms, roomId) == Some(i)
    requires rooms[i].quiz.currentProblem + |times| <= |rooms[i].quiz.problems|
    ensures var after := NextMany(rooms, roomId, times).0;
            && RoomIndex(after, roomId) == Some(i)
            && after[i].quiz.currentProblem == rooms[i].quiz.currentProblem + |times|
            && after[i].quiz.problems == rooms[i].quiz.problems
            && after[i].users == rooms[i].users
    decreases |times|
  {
    if |times| > 0 {
      var s := Next(rooms, roomId, times[0]);
      assert NextMany(rooms, roomId, times).0 == NextMany(s.rooms, roomId, times[1..]).0;
      NextStep(rooms, roomId, times[0], i);
      NextManyRoom(s.rooms, roomId, times[1..], i);
    }
  }

  /** Calling `next` once per remaining problem shows those problems in order. */
  lemma {:induction false} NextWalksProblems(rooms: seq<Room>, roomId: string, times: seq<int>, i: nat)
    requires RoomIndex(rooms, roomId) == Some(i)
    requires rooms[i].quiz.currentProblem + |times| <= |rooms[i].quiz.problems|
    ensures var shown := NextMany(rooms, roomId, times).1;
            && |shown| == |times|
            && ShowsProblems(shown, rooms[i].quiz.problems, rooms[i].quiz.currentProblem)
    decreases |times|
  {
    if |times| > 0 {
      var s := Next(rooms, roomId, times[0]);
      NextStep(rooms, roomId, times[0], i);
      var later := times[1..];
      assert |later| == |times| - 1;
      var rest := NextMany(s.rooms, roomId, later).1;
      assert NextMany(rooms, roomId, times).1 == [s.reply.shown] + rest;
      NextWalksProblems(s.rooms, roomId, later, i);
      ShownInOrder(s.reply.shown, rest, rooms[i].quiz.problems, rooms[i].quiz.currentProblem);
    }
  }

  /** `shown` lists the problems of `ps` from position `c` onward, one per entry. */
  ghost predicate ShowsProblems(shown: seq<Option<Shown>>, ps: seq<Problem>, c: nat)
  {
    && c + |shown| <= |ps|
    && forall n :: 0 <= n < |shown| ==> shown[n].Some? && shown[n].value.problem == ps[c + n]
  }

  /** A problem shown at position `c`, followed by the problems from `c + 1`,
      lists the problems from `c`. */
  lemma ShownInOrder(first: Option<Shown>, rest: seq<Option<Shown>>, ps: seq<Problem>, c: nat)
    requires c < |ps| && first.Some? && first.value.problem == ps[c]
    requires ShowsProblems(rest, ps, c + 1)
    ensures ShowsProblems([first] + rest, ps, c)
  {
    forall n | 0 <= n < |rest| + 1
      ensures ([first] + rest)[n].Some? && ([first] + rest)[n].value.problem == ps[c + n]
    {
      if n > 0 {
        assert ([first] + rest)[n] == rest[n - 1];
      }
    }
  }

  /** Once every problem has been shown, `next` fails and changes nothing. */
  lemma NextAfterLastProblem(rooms: seq<Room>, roomId: string, now: int, i: nat)
    requires RoomIndex(rooms, roomId) == Some(i)
    requires rooms[i].quiz.currentProblem == |rooms[i].quiz.problems|
    ensures Next(rooms, roomId, now).rooms == rooms
    ensures Next(rooms, roomId, now).reply.error
  {
  }

  /** `next` applied at each of the given times; the rooms afterwards and what each call showed. */
  function NextMany(rooms: seq<Room>, roomId: string, times: seq<int>): (seq<Room>, seq<Option<Shown>>)
    decreases |times|
  {
    if |times| == 0 then (rooms, [])
    else
      var s := Next(rooms, roomId, times[0]);
      var (rooms', shown) := NextMany(s.rooms, roomId, times[1..]);
      (rooms', [s.reply.shown] + shown)
  }

  // ---- endQuiz and the leaderboard ----

  datatype EndReply = EndReply(error: bool, message: string, leaderboard: Option<seq<User>>)

  /** `endQuiz(roomId)`: finish the quiz and broadcast the leaderboard, which also
      reorders the room's roster in place. */
  function EndQuiz(rooms: seq<Room>, roomId: string): (r: Step<EndReply>)
    ensures RoomIndex(rooms, roomId).None? ==> r == Step(rooms, EndReply(true, "No room found", None))
    ensures RoomIndex(rooms, roomId).Some? ==>
              var i := RoomIndex(rooms, roomId).value;
              && |r.rooms| == |rooms|
              && r.reply.error == false && r.reply.message == "Room is end"
              && r.reply.leaderboard == Some(r.rooms[i].users)
              && (forall j :: 0 <= j < |rooms| && j != i ==> r.rooms[j] == rooms[j])
              && r.rooms[i].status == Finished
              && r.rooms[i].(status := rooms[i].status, users := rooms[i].users) == rooms[i]
              && multiset(r.rooms[i].users) == multiset(rooms[i].users)
              && NonIncreasing(r.rooms[i].users)
              && (forall p :: WithPoints(r.rooms[i].users, p) == Reverse(WithPoints(rooms[i].users, p)))
  {
    match RoomIndex(rooms, roomId)
    case None => Step(rooms, EndReply(true, "No room found", None))
    case Some(i) =>
      var room := rooms[i];
      var ranked := Ranking(room.users);
      Step(Replace(rooms, i, room.(status := Finished, users := ranked)),
           EndReply(false, "Room is end", Some(ranked)))
  }

  /** Ending twice keeps the status `Finished` and the same users, but the
      second ranking reverses each tie again. */
  lemma EndQuizTwice(rooms: seq<Room>, roomId: string)
    requires RoomIndex(rooms, roomId).Some?
    ensures var once := EndQuiz(rooms, roomId);
            var twice := EndQuiz(once.rooms, roomId);
            var i := RoomIndex(rooms, roomId).value;
            && RoomIndex(once.rooms, roomId) == Some(i)
            && twice.rooms[i].status == Finished
            && multiset(twice.rooms[i].users) == multiset(once.rooms[i].users)
            && (forall p :: WithPoints(twice.rooms[i].users, p) == WithPoints(rooms[i].users, p))
  {
    var once := EndQuiz(rooms, roomId);
    var i := RoomIndex(rooms, roomId).value;
    assert forall j :: 0 <= j < |rooms| ==> once.rooms[j].id == rooms[j].id;
    assert RoomIndex(once.rooms, roomId) == Some(i);
    forall p
      ensures WithPoints(EndQuiz(once.rooms, roomId).rooms[i].users, p) == WithPoints(rooms[i].users, p)
    {
      ReverseTwice(WithPoints(rooms[i].users, p));
    }
  }

  /** The roster after `endQuiz` is not fixed by a second `endQuiz`: two users
      tied on points swap places each time. */
  lemma EndQuizNotIdempotentOnTies()
    ensures var u1, u2 := User("1", "ann", 0, "1"), User("2", "bob", 0, "2");
            var rooms := [Room("r", "Trivia", "alice", Waiting, Quiz([], 0, 0), [u1, u2])];
            var once := EndQuiz(rooms, "r");
            && once.rooms[0].users == [u2, u1]
            && EndQuiz(once.rooms, "r").rooms[0].users == [u1, u2]
  {
    var u1, u2 := User("1", "ann", 0, "1"), User("2", "bob", 0, "2");
    RankingSwapsTiedPair(u1, u2);
    RankingSwapsTiedPair(u2, u1);
  }

  /** Every ranking flips the order of tied users: after a reveal between
      problems, `endQuiz` lists two tied users in join order again. */
  lemma RevealThenEndJoinOrder()
    ensures var u1, u2 := User("1", "ann", 0, "1"), User("2", "bob", 0, "2");
            var rooms := [Room("r", "Trivia", "alice", Ongoing, Quiz([], 0, 0), [u1, u2])];
            var revealed := RevealLeaderboard(rooms, "r");
            && revealed.reply == Some([u2, u1])
            && EndQuiz(revealed.rooms, "r").reply.leaderboard == Some([u1, u2])
  {
    var u1, u2 := User("1", "ann", 0, "1"), User("2", "bob", 0, "2");
    RankingSwapsTiedPair(u1, u2);
    RankingSwapsTiedPair(u2, u1);
  }

  /** The deferred callback of `getLeaderboard(roomId, countdown)` when its timer
      fires: the room's roster is ranked in place and broadcast. */
  function RevealLeaderboard(rooms: seq<Room>, roomId: string): (r: Step<Option<seq<User>>>)
    ensures RoomIndex(rooms, roomId).None? ==> r == Step(rooms, None)
    ensures RoomIndex(rooms, roomId).Some? ==>
              var i := RoomIndex(rooms, roomId).value;
              && |r.rooms| == |rooms|
              && r.reply == Some(r.rooms[i].users)
              && (forall j :: 0 <= j < |rooms| && j != i ==> r.rooms[j] == rooms[j])
              && r.rooms[i].(users := rooms[i].users) == rooms[i]
              && multiset(r.rooms[i].users) == multiset(rooms[i].users)
              && NonIncreasing(r.rooms[i].users)
              && (forall p :: WithPoints(r.rooms[i].users, p) == Reverse(WithPoints(rooms[i].users, p)))
  {
    match RoomIndex(rooms, roomId)
    case None => Step(rooms, None)
    case Some(i) =>
      var ranked := Ranking(rooms[i].users);
      Step(Replace(rooms, i, rooms[i].(users := ranked)), Some(ranked))
  }

  // ---- registry invariant: usernames are unique within each room ----

  ghost predicate UniqueNames(rooms: seq<Room>)
  {
    forall j :: 0 <= j < |rooms| ==> NamesDistinct(rooms[j].users)
  }

  lemma AppendFreshName(users: seq<User>, u: User)
    requires NamesDistinct(users) && !NameTaken(users, u.username)
    ensures NamesDistinct(users + [u])
  {
    var s := users + [u];
    forall i, j | 0 <= i < j < |s|
      ensures s[i].username != s[j].username
    {
      assert s[i] == users[i];
      if j == |users| {
        assert s[i] in users;
      }
    }
  }

  lemma AddUserKeepsNamesUnique(rooms: seq<Room>, roomId: string, username: string, id: string, avatar: Avatar)
    requires UniqueNames(rooms)
    ensures UniqueNames(AddUser(rooms, roomId, username, id, avatar).rooms)
  {
    var r := AddUser(rooms, roomId, username, id, avatar);
    if r.reply.Joined? {
      var i := RoomIndex(rooms, roomId).value;
      AppendFreshName(rooms[i].users, User(id, username, 0, ImageOf(avatar)));
      assert r.rooms[i].users == rooms[i].users + [User(id, username, 0, ImageOf(avatar))];
    }
  }

  lemma SubmitAnswerKeepsNamesUnique(rooms: seq<Room>, userId: string, roomId: string, problemId: string,
                                     answer: int, countdown: int, now: int)
    requires SubmissionScorable(rooms, userId, roomId, problemId, answer, countdown, now)
    requires UniqueNames(rooms)
    ensures UniqueNames(SubmitAnswer(rooms, userId, roomId, problemId, answer, countdown, now))
  {
    var r := SubmitAnswer(rooms, userId, roomId, problemId, answer, countdown, now);
    match ScoringTarget(rooms, userId, roomId, problemId, answer)
    case None =>
    case Some((i, k)) =>
      assert forall j :: 0 <= j < |rooms[i].users| ==> r[i].users[j].username == rooms[i].users[j].username;
  }

  lemma NextKeepsNamesUnique(rooms: seq<Room>, roomId: string, now: int)
    requires UniqueNames(rooms)
    ensures UniqueNames(Next(rooms, roomId, now).rooms)
  {
  }

  lemma EndQuizKeepsNamesUnique(rooms: seq<Room>, roomId: string)
    requires UniqueNames(rooms)
    ensures UniqueNames(EndQuiz(rooms, roomId).rooms)
  {
    match RoomIndex(rooms, roomId)
    case None =>
    case Some(i) =>
      RankingKeepsNamesDistinct(rooms[i].users);
  }

  lemma RevealKeepsNamesUnique(rooms: seq<Room>, roomId: string)
    requires UniqueNames(rooms)
    ensures UniqueNames(RevealLeaderboard(rooms, roomId).rooms)
  {
    match RoomIndex(rooms, roomId)
    case None =>
    case Some(i) =>
      RankingKeepsNamesDistinct(rooms[i].users);
  }

  // ---- worked scenarios ----

  /** `next` does not look at the status: it reopens a finished room. */
  lemma NextReopensFinishedRoom()
    ensures var p := Problem("p1", "r", "Capital of France?", ["Paris", "Rome"], 0, 10);
            var rooms := [Room("r", "Trivia", "alice", Finished, Quiz([p], 0, 0), [])];
            Next(rooms, "r", 5000).rooms[0].status == Ongoing
  {
  }

  /** The quiz used by the session examples: one problem, answer 0, 10 s countdown. */
  function ExampleProblem(): Problem
  {
    Problem("p1", "r", "Capital of France?", ["Paris", "Rome"], 0, 10)
  }

  /** Joining a session: bob joins a waiting room, and a second "bob" is
      refused with the roster left at one user. */
  lemma SessionJoinExample()
    ensures var rooms := [Room("r", "Trivia", "alice", Waiting, Quiz([ExampleProblem()], 0, 0), [])];
            var joined := AddUser(rooms, "r", "bob", "u1", 3);
            var again := AddUser(joined.rooms, "r", "bob", "u2", 5);
            && joined.reply.Joined?
            && joined.rooms[0].users == [User("u1", "bob", 0, "3")]
            && again.reply == JoinFailed("User already in room")
            && again.rooms == joined.rooms
  {
    var rooms := [Room("r", "Trivia", "alice", Waiting, Quiz([ExampleProblem()], 0, 0), [])];
    var bob := User("u1", "bob", 0, "3");
    var joined := AddUser(rooms, "r", "bob", "u1", 3);
    assert joined.rooms == [rooms[0].(users := [bob])];
    assert NameTaken(joined.rooms[0].users, "bob") by { assert bob in joined.rooms[0].users; }
  }

  /** The example room once its only problem is on screen, with `users` as its roster. */
  function ExampleOngoing(users: seq<User>): Room
  {
    Room("r", "Trivia", "alice", Ongoing, Quiz([ExampleProblem()], 1, 1000), users)
  }

  /** Scoring step of the example: a correct answer 2 s after the problem was
      shown on a 10 s countdown earns 160 points. */
  lemma ExampleScoreStep(bob: User)
    requires bob == User("u1", "bob", 0, "3")
    ensures SubmitAnswer([ExampleOngoing([bob])], "u1", "r", "p1", 0, 10, 3000)
              == [ExampleOngoing([bob.(points := 160_000)])]
  {
    var shown := [ExampleOngoing([bob])];
    PointsExample();
    PointsShiftInvariant(0, 2000, 1000, 10);
    assert ProblemIndex(shown[0].quiz.problems, "p1") == Some(0);
    assert UserIndex(shown[0].users, "u1") == Some(0);
    assert ScoringTarget(shown, "u1", "r", "p1", 0) == Some((0, 0));
    var scored := SubmitAnswer(shown, "u1", "r", "p1", 0, 10, 3000);
    assert |scored| == 1 && |scored[0].users| == 1;
    assert scored[0].users[0] == bob.(points := 160_000);
    assert scored[0].users == [bob.(points := 160_000)];
    assert scored[0] == scored[0].(users := shown[0].users).(users := [bob.(points := 160_000)]);
  }

  /** A one-user roster ranks as itself. */
  lemma RankingSingle(u: User)
    ensures Ranking([u]) == [u]
  {
    assert [u][1..] == [];
    assert SortByPoints([u]) == Insert(u, []) == [u];
    ReverseCons(u, []);
  }

  /** Playing a session: the only problem is shown at 1 s, bob answers it
      correctly at 3 s on a 10 s countdown and earns 160 points, a further
      `next` fails, and the final leaderboard is bob alone. */
  lemma SessionPlayExample()
    ensures var bob := User("u1", "bob", 0, "3");
            var rooms := [Room("r", "Trivia", "alice", Waiting, Quiz([ExampleProblem()], 0, 0), [bob])];
            var shown := Next(rooms, "r", 1000);
            var scored := SubmitAnswer(shown.rooms, "u1", "r", "p1", 0, 10, 3000);
            var over := Next(scored, "r", 4000);
            var ended := EndQuiz(over.rooms, "r");
            && shown.reply.countdown == 10 && shown.rooms[0].status == Ongoing
            && scored[0].users == [bob.(points := 160_000)]
            && over.reply.error
            && ended.reply.leaderboard == Some([bob.(points := 160_000)])
  {
    var bob := User("u1", "bob", 0, "3");
    var bob' := bob.(points := 160_000);
    var rooms := [Room("r", "Trivia", "alice", Waiting, Quiz([ExampleProblem()], 0, 0), [bob])];
    var shown := Next(rooms, "r", 1000);
    assert shown.rooms == [ExampleOngoing([bob])];
    ExampleScoreStep(bob);
    var scored := [ExampleOngoing([bob'])];
    var over := Next(scored, "r", 4000);
    assert over.rooms == scored;
    RankingSingle(bob');
  }
}

=== FILE: rooms.dfy ===
/** The in-memory records of the quiz manager: room status, users, problems
    and the per-room quiz session with its problem cursor and start time. */
module Rooms {
  import opened Base

  /** Lifecycle of a room; the text is the enum's string value. */
  datatype Status = Waiting | Started | Ongoing | Finished
  {
    function Text(): string
    {
      match this
      case Waiting => "waiting"
      case Started => "started"
      case Ongoing => "ongoing"
      case Finished => "finished"
    }
  }

  /** The avatar number drawn at join time: `Math.floor(Math.random() * 7) + 1`. */
  type Avatar = n: int | 1 <= n <= 7 witness 1

  /** A participant; `points` are thousandths of a point. */
  datatype User = User(id: string, username: string, points: int, image: string)

  /** One multiple-choice problem as loaded into a quiz. */
  datatype Problem = Problem(id: string, roomId: string, title: string, options: seq<string>,
                             answer: int, countdown: int)

  /** A quiz session: the problems, the cursor of the next problem to show, and
      the time (milliseconds) at which the current problem was shown. */
  datatype Quiz = Quiz(problems: seq<Problem>, currentProblem: nat, startTime: int)

  datatype Room = Room(id: string, name: string, admin: string, status: Status,
                       quiz: Quiz, users: seq<User>)

  /** `randomNumber.toString()` for an avatar number. */
  function ImageOf(a: Avatar): (r: string)
    ensures |r| == 1 && '1' <= r[0] <= '7'
    ensures r[0] as int - '0' as int == a
  {
    [('0' as int + a) as char]
  }

  /** The outcome of `Quiz.next()`: an error, or the problem to present with its index. */
  datatype QuizStep = NoProblemsLeft | Present(problem: Problem, index: nat, quiz: Quiz)

  /** `Quiz.next()`: present the problem under the cursor and move the cursor on. */
  function QuizNext(q: Quiz): (r: QuizStep)
    ensures r.NoProblemsLeft? <==> q.currentProblem >= |q.problems|
    ensures r.Present? ==> r.index == q.currentProblem && r.problem == q.problems[r.index]
    ensures r.Present? ==> r.quiz.problems == q.problems && r.quiz.startTime == q.startTime
    ensures r.Present? ==> r.quiz.currentProblem == q.currentProblem + 1 <= |q.problems|
  {
    if q.currentProblem < |q.problems| then
      Present(q.problems[q.currentProblem], q.currentProblem, q.(currentProblem := q.currentProblem + 1))
    else NoProblemsLeft
  }

  /** The problems shown by calling `QuizNext` repeatedly until it reports an error. */
  function Presentations(q: Quiz): seq<Problem>
    decreases |q.problems| - q.currentProblem
  {
    match QuizNext(q)
    case NoProblemsLeft => []
    case Present(p, _, q') => [p] + Presentations(q')
  }

  /** Repeated advancing shows every remaining problem exactly once, in order,
      and then stops. */
  lemma {:induction false} PresentationsAreRemainingProblems(q: Quiz)
    ensures q.currentProblem <= |q.problems| ==> Presentations(q) == q.problems[q.currentProblem..]
    ensures q.currentProblem > |q.problems| ==> Presentations(q) == []
    decreases |q.problems| - q.currentProblem
  {
    match QuizNext(q)
    case NoProblemsLeft =>
    case Present(p, _, q') =>
      PresentationsAreRemainingProblems(q');
  }

  /** Usernames are pairwise distinct within a roster. */
  ghost predicate NamesDistinct(users: seq<User>)
  {
    forall i, j :: 0 <= i < j < |users| ==> users[i].username != users[j].username
  }

  /** The status strings are pairwise different, so a refusal names the status. */
  lemma StatusTextDistinct(a: Status, b: Status)
    ensures a.Text() == b.Text() <==> a == b
  {
    assert "waiting"[0] == 'w' && "started"[0] == 's' && "ongoing"[0] == 'o' && "finished"[0] == 'f';
  }

  /** Whether some user of the roster already has this username. */
  predicate NameTaken(users: seq<User>, username: string)
  {
    exists u :: u in users && u.username == username
  }
}

=== FILE: scoring.dfy ===
/** The scoring rule of `QuizManager.calculatePoints`: a correct answer is worth
    200 points when given instantly, decaying linearly to 0 at the end of the
    countdown, and nothing afterwards; the result is rounded to thousandths.
    Points are modelled as exact integer thousandths of a point, times as
    integer milliseconds and the countdown as integer seconds. */
module Scoring {

  /** Points for an instant answer (`MAXPOINTS`), in thousandths. */
  const MaxPoints: int := 200_000

  /** `r` is `num / den` rounded to the nearest integer, a tie going up
      (the behaviour of `Math.round`). */
  ghost predicate RoundsHalfUp(r: int, num: int, den: int)
    requires den != 0
  {
    if den > 0 then (2 * r - 1) * den <= 2 * num < (2 * r + 1) * den
    else (2 * r + 1) * den < 2 * num <= (2 * r - 1) * den
  }

  /** `Math.round(num / den)` computed on the exact rational. */
  function RoundHalfUp(num: int, den: int): (r: int)
    requires den != 0
    ensures RoundsHalfUp(r, num, den)
  {
    var n := if den > 0 then 2 * num + den else -2 * num - den;
    var d := if den > 0 then 2 * den else -2 * den;
    var q := n / d;
    assert n == q * d + n % d;
    q
  }

  /** Multiplication by a positive number can be cancelled from a strict inequality. */
  lemma MulCancelLess(a: int, b: int, d: int)
    requires d > 0 && a * d < b * d
    ensures a < b
  {
    assert (b - a) * d == b * d - a * d;
  }

  /** Half-up rounding is the only integer within one half of the quotient. */
  lemma RoundsHalfUpUnique(r1: int, r2: int, num: int, den: int)
    requires den > 0
    requires RoundsHalfUp(r1, num, den) && RoundsHalfUp(r2, num, den)
    ensures r1 == r2
  {
    MulCancelLess(2 * r2 - 1, 2 * r1 + 1, den);
    MulCancelLess(2 * r1 - 1, 2 * r2 + 1, den);
  }

  /** JavaScript produces NaN or Infinity when the countdown is zero and the
      answer is not late; every other input has a finite score. */
  predicate Scorable(startTime: int, endTime: int, countdown: int)
  {
    countdown != 0 || endTime - startTime > 0
  }

  /** Exact value of `MAXPOINTS * (1 - seconds / countdown)` in thousandths,
      as a numerator over the denominator `countdown`. */
  function ExactNumerator(elapsedMs: int, countdown: int): int
  {
    MaxPoints * countdown - 200 * elapsedMs
  }

  /** `calculatePoints(startTime, endTime, countdown)` in thousandths. */
  function CalculatePoints(startTime: int, endTime: int, countdown: int): (r: int)
    requires Scorable(startTime, endTime, countdown)
    ensures endTime - startTime > 1000 * countdown ==> r == 0
    ensures endTime - startTime <= 1000 * countdown ==>
              countdown != 0 && RoundsHalfUp(r, ExactNumerator(endTime - startTime, countdown), countdown)
  {
    var elapsedMs := endTime - startTime;
    if elapsedMs > 1000 * countdown then 0
    else RoundHalfUp(ExactNumerator(elapsedMs, countdown), countdown)
  }

  lemma DivMonotone(a: int, b: int, d: int)
    requires a <= b && d > 0
    ensures a / d <= b / d
  {
    assert (a / d) * d <= a;
    assert b < (b / d + 1) * d;
    MulCancelLess(a / d, b / d + 1, d);
  }

  /** The score depends only on the elapsed time. */
  lemma PointsShiftInvariant(startTime: int, endTime: int, shift: int, countdown: int)
    requires Scorable(startTime, endTime, countdown)
    ensures Scorable(startTime + shift, endTime + shift, countdown)
    ensures CalculatePoints(startTime + shift, endTime + shift, countdown)
         == CalculatePoints(startTime, endTime, countdown)
  {
  }

  /** An answer submitted at the very start earns the full 200 points. */
  lemma PointsAtStart(t: int, countdown: int)
    requires countdown > 0
    ensures CalculatePoints(t, t, countdown) == MaxPoints
  {
    var r := CalculatePoints(t, t, countdown);
    assert RoundsHalfUp(MaxPoints, ExactNumerator(0, countdown), countdown);
    RoundsHalfUpUnique(r, MaxPoints, ExactNumerator(0, countdown), countdown);
  }

  /** An answer submitted exactly when the countdown runs out earns nothing. */
  lemma PointsAtDeadline(t: int, countdown: int)
    requires countdown > 0
    ensures CalculatePoints(t, t + 1000 * countdown, countdown) == 0
  {
    var r := CalculatePoints(t, t + 1000 * countdown, countdown);
    assert ExactNumerator(1000 * countdown, countdown) == 0;
    assert RoundsHalfUp(0, 0, countdown);
    RoundsHalfUpUnique(r, 0, 0, countdown);
  }

  /** Late answers earn nothing, however late. */
  lemma PointsLate(startTime: int, endTime: int, countdown: int)
    requires countdown > 0 && endTime - startTime > 1000 * countdown
    ensures CalculatePoints(startTime, endTime, countdown) == 0
  {
  }

  /** A timely (not early) answer earns between 0 and 200 points. */
  lemma PointsBounded(startTime: int, endTime: int, countdown: int)
    requires countdown > 0 && endTime >= startTime
    ensures 0 <= CalculatePoints(startTime, endTime, countdown) <= MaxPoints
  {
    PointsNonNegative(startTime, endTime, countdown);
    var ms := endTime - startTime;
    var r := CalculatePoints(startTime, endTime, countdown);
    if ms <= 1000 * countdown {
      var num := ExactNumerator(ms, countdown);
      assert 2 * num < (2 * MaxPoints + 1) * countdown;
      MulCancelLess(2 * r - 1, 2 * MaxPoints + 1, countdown);
    }
  }

  /** The score of an answer that is not late is never negative. */
  lemma PointsNonNegative(startTime: int, endTime: int, countdown: int)
    requires countdown > 0
    ensures CalculatePoints(startTime, endTime, countdown) >= 0
  {
    var ms := endTime - startTime;
    var r := CalculatePoints(startTime, endTime, countdown);
    if ms <= 1000 * countdown {
      assert 0 * countdown <= 2 * ExactNumerator(ms, countdown);
      MulCancelLess(0 - 1, 2 * r + 1, countdown);
    }
  }

  /** Answering later never earns more. */
  lemma {:induction false} PointsNonIncreasing(startTime: int, end1: int, end2: int, countdown: int)
    requires countdown > 0 && end1 <= end2
    ensures CalculatePoints(startTime, end1, countdown) >= CalculatePoints(startTime, end2, countdown)
  {
    var ms1, ms2 := end1 - startTime, end2 - startTime;
    if ms2 > 1000 * countdown {
      PointsNonNegative(startTime, end1, countdown);
    } else {
      var n1, n2 := ExactNumerator(ms1, countdown), ExactNumerator(ms2, countdown);
      assert n2 <= n1;
      DivMonotone(2 * n2 + countdown, 2 * n1 + countdown, 2 * countdown);
    }
  }

  /** Two seconds into a ten-second countdown a correct answer is worth 160 points. */
  lemma PointsExample()
    ensures CalculatePoints(0, 2000, 10) == 160_000
  {
    var r := CalculatePoints(0, 2000, 10);
    assert RoundsHalfUp(160_000, ExactNumerator(2000, 10), 10);
    RoundsHalfUpUnique(r, 160_000, ExactNumerator(2000, 10), 10);
  }
}
